=== FILE: README.md ===
# disk-scheduler: the disk-reassignment run, in Dafny

`disk-scheduler` runs on a Google Compute Engine instance at boot. It claims a
persistent disk, named by the `--disk` flag, for the instance it runs on. The
run has these steps:

1. It reads the project id, zone and hostname from the metadata server.
2. It checks that the disk exists.
3. It scans the instances that one listing call for the zone returns, for
   one that exposes a device under the disk's name.
4. It then does one of three things:
   - nothing, when that instance is itself;
   - attaches the disk, when no instance has it;
   - detaches the disk from the other holder and then attaches it to itself.

Each detach and attach returns a zone operation. The run polls that operation
until it is `DONE`, has its error set, or the status query fails.

This project models that run (`runSafe` and the functions it calls in
`main.go`) as pure functions. The metadata server and the compute API are not
called. Their replies are fixed in advance in a `Script`. A run is a `Run`:
the trace of calls made, and how it ended (`Success`, `Failure(error)`, or
`StillPolling` when the status replies ran out before the operation
finished). Ordering properties and "this call never happens" are stated over
that trace.

| file | module | models |
|---|---|---|
| `segments.dfy` | `Segments` | `strings.Split` with a one-character separator; picking the zone (last `/` segment) and the instance name (first `.` segment) |
| `compute.dfy` | `Compute` | instances, attached disks, replies, calls, errors, outcomes; the mutating sub-trace |
| `locator.dfy` | `Locator` | `findAttachedInstance` |
| `waiter.dfy` | `Waiter` | the operation poll loop shared by `detachDisk` and `attachDisk` |
| `orchestrator.dfy` | `Orchestrator` | `detachDisk`, `attachDisk`, the attach source URL, the decision, `runSafe` |
| `properties.dfy` | `RunProperties` | what whole runs do: which calls happen, how often, in what order |
| `effects.dfy` | `Effects` | what detach and attach do to the zone; a successful run leaves the claimer the sole holder, and a second run is a no-op |
| `scenario.dfy` | `Scenario` | one full run: `new-host` takes `data-1` from `old-host` |

Some behaviour of `main.go` worth knowing when reading the model:

- **Error field before status.** The poll loop looks at the operation's
  error field before its status. An operation with its error set fails the
  run whatever its status.
- **Disk lookup errors pass through.** Any `Disks.Get` error ends the run and
  is returned unchanged, like every other remote error.
- **A failed attach after a completed detach** is returned like any other
  error. The trace shows that state: a detach, its polls, an attach, then
  the failure.
- **One workflow.** `main.go` waits for each operation to finish before
  going on.

An edge the code allows and the model keeps: if the hostname starts with `.` or
is empty, the claiming name is `""`. If no instance holds the disk, the scan also answers
`""`. The two compare equal, so the run ends in success without attaching
anything. `Effects.Claimable` excludes this by requiring the claimer to be a
listed instance, and listed instances have non-empty names.

## Model

| member | source | states |
|---|---|---|
| Segments.Split | main.go:58 | `strings.Split` always yields at least one segment, so `parts[len(parts)-1]` and `parts[0]` never index out of range |
| Segments.SplitCount | main.go:58 | the split has exactly one more segment than the string has separators |
| Segments.JoinSplit | main.go:58 | joining the segments with the separator gives back the metadata value: nothing is lost by the split |
| Segments.SplitJoin | main.go:58 | splitting a join of separator-free names gives back exactly those names |
| Segments.SplitNoSeparator | main.go:58 | a value without the separator is one segment, itself |
| Segments.SplitAround | main.go:58 | splitting around one separator splits the two sides independently and concatenates the results |
| Segments.SplitLast | main.go:58-59 | a separator-free tail after the final separator becomes the last segment |
| Segments.SplitSeparatorFree | main.go:58 | no segment contains the separator |
| Segments.LastSegmentOfSplit | main.go:58-59 | the last element of the split is a separator-free suffix of the value, preceded by `/` unless it is the whole value |
| Segments.FirstSegmentOfSplit | main.go:65-66 | the first element of the split is a separator-free prefix of the value, followed by `.` unless it is the whole value |
| Segments.LastSegment | main.go:58-59 | the zone contains no `/` and is the text after the last `/` of `instance/zone` (all of it when there is none) |
| Segments.FirstSegment | main.go:65-66 | the instance name contains no `.` and is the text before the first `.` of `instance/hostname` (all of it when there is none) |
| Segments.LastSegmentUnique | main.go:58-59 | that characterisation of the zone admits exactly one string |
| Segments.FirstSegmentUnique | main.go:65-66 | that characterisation of the instance name admits exactly one string |
| Compute.Mutations | main.go:145 | the detach and attach calls of a trace, kept in order: only mutating calls, each one that occurs, nothing else |
| Compute.MutationsAppend | main.go:78-90 | the mutations of two consecutive traces are those of the first followed by those of the second |
| Compute.NoMutations | main.go:49-74 | a trace without detach or attach calls changes nothing in the cloud |
| Locator.HasDevice | main.go:134-138 | the inner loop finds a match exactly when some attached disk's `DeviceName` equals the disk name |
| Locator.FindAttachedInstance | main.go:128-142 | the answer is the name of the first listed instance exposing the disk, and `""` when none does |
| Locator.NoHolderIffEmpty | main.go:133-141 | with non-empty instance names, `""` is returned if and only if no instance exposes the disk |
| Locator.FirstHolderExists | main.go:133-139 | when some instance exposes the disk, there is a first one in list order for the scan to return |
| Waiter.Verdict | main.go:152-161 | a failed query ends with that error; an operation with its error set fails naming the operation, even when `DONE`; only a clean `DONE` succeeds |
| Waiter.Wait | main.go:150-165 | one status query per reply until the first terminal reply, each for the same operation; no terminal reply means still polling after all replies are used |
| Waiter.StopsAtFirstTerminal | main.go:150-165 | the loop makes exactly one query per reply up to the first terminal one and ends with its verdict |
| Waiter.WaitsWithoutTerminal | main.go:150-165 | without a terminal reply, every reply is queried and the loop is still polling |
| Waiter.WaitSucceedsIff | main.go:156-162 | the loop succeeds if and only if the first terminal reply is a `DONE` operation without an error |
| Waiter.WaitMutatesNothing | main.go:151 | polling only reads: it makes no detach or attach call |
| Waiter.PendingPendingDone | main.go:160-164 | two unfinished replies and then `DONE`: success after exactly three queries |
| Waiter.DoneWithErrorFails | main.go:156-158 | a `DONE` reply with its error set fails at once, naming the operation, and later replies are never queried |
| Orchestrator.AttachSpec | main.go:171-174 | the attached disk is exposed under the disk's own name |
| Orchestrator.SourceUrlPrefixShape | main.go:173 | the fixed URL prefix is the API path followed by `/` |
| Orchestrator.ApiPathSegments | main.go:173 | the API path splits into `https:`, an empty segment, `www.googleapis.com`, `compute`, `v1`, `projects` |
| Orchestrator.SourceUrlShape | main.go:173 | the source URL is the API path, then `project`, `zones`, `zone`, `disks`, `disk`, separated by `/` |
| Orchestrator.SourceUrlNamesDisk | main.go:173 | for slash-free names, the URL's segments are exactly the API path, the project, the zone and the disk, and its last segment is the disk |
| Orchestrator.SplitUrlTail | main.go:173 | appending five slash-free names to a path extends its split by exactly those names |
| Orchestrator.Detach | main.go:144-168 | the detach call comes first and is the only mutation; a refused request is that one call and its error, with no status query; an accepted one is followed by exactly the poll loop's queries and ends with its outcome, so success exactly when the operation completes cleanly |
| Orchestrator.Attach | main.go:170-198 | the attach call, with the disk described as above, comes first and is the only mutation; a refused request is that one call and its error, with no status query; an accepted one is followed by exactly the poll loop's queries and ends with its outcome |
| Orchestrator.Reassign | main.go:78-90 | claimer already holds it: no call at all, success. Nobody holds it: exactly the attach and its poll loop. Another holds it: the detach and its poll loop, and only once that loop saw the operation complete, the attach and its poll loop, with nothing else called; the decision ends with the last poll loop's outcome, or a refused request's error |
| Orchestrator.ZoneOf | main.go:54-59 | the run's zone is the last `/` segment of the zone metadata and contains no `/` |
| Orchestrator.ClaimerOf | main.go:61-66 | the claiming name is the first `.` segment of the hostname and contains no `.` |
| Orchestrator.RunSafe | main.go:29-95 | an empty flag fails before any call; success, and any detach or attach, happen only when the flag is set and every lookup succeeded |
| Orchestrator.Lookups | main.go:49-77 | the lookups a run makes before deciding change nothing |
| Orchestrator.RunAfterQueries | main.go:29-95 | once every lookup succeeds, the run is the lookups followed by the decision's calls, with the decision's outcome |
| RunProperties.EmptyDiskMakesNoCalls | main.go:32-34 | an empty disk flag makes no call at all and fails with the validation error |
| RunProperties.MissingDiskStopsRun | main.go:68-71 | a failed disk lookup ends the run with its error after exactly the three metadata reads and the lookup itself; no listing, detach or attach happens |
| RunProperties.LookupErrorStopsRun | main.go:43-77 | a failed client build, metadata read or instance listing ends the run with that error, after exactly the calls before it and the failing one |
| RunProperties.DetachOperationFailsRun | main.go:150-158 | a detach operation whose first terminal reply has its error set fails the run naming the operation; a failed status query fails it with that error; the trace is the lookups, the detach and one status query per reply up to that one, and nothing after |
| RunProperties.DetachPendingRun | main.go:150-165 | detach replies that never become terminal leave the run waiting, after the lookups, the detach and one status query per reply, with no attach made |
| RunProperties.DetachFailsBeforeAttach | main.go:79-84 | a detach that does not complete decides the run's outcome, and the run is the lookups followed by the detach's own calls alone |
| RunProperties.AttachOperationFailsRun | main.go:180-188 | an attach operation whose first terminal reply has its error set fails the run naming the operation; a failed status query fails it with that error; the trace is the lookups, the completed detach and its queries when there was a holder, the attach, and one status query per reply up to that one |
| RunProperties.AttachPendingRun | main.go:180-195 | attach replies that never become terminal leave the run waiting, after the lookups, any completed detach with its queries, the attach and one status query per reply |
| RunProperties.AttachDueRun | main.go:79-88 | when the attach is due and accepted, the run is the lookups, the completed detach and its queries if there was a holder, the attach call and its poll loop, with that loop's outcome |
| RunProperties.QueriesComeFirst | main.go:48-77 | project id, zone, hostname, disk lookup and listing come first, in that order, and the run's mutations are the decision's |
| RunProperties.AlreadyHeldIsNoOp | main.go:78 | when the first holder is the claimer, the run succeeds with the five lookups as its whole trace |
| RunProperties.UnheldIsAttachOnly | main.go:78-89 | when no instance holds the disk, the run is the lookups followed by the attach of the disk to the claimer and its poll loop alone, and succeeds exactly when that attach completes |
| RunProperties.HeldElsewhereDetachesFirst | main.go:78-89 | when another instance holds it, it is detached exactly once, before the attach, and the attach happens only if the detach completed |
| RunProperties.OnlyTheDiskMoves | main.go:145-175 | every detach and attach of any run concerns the flagged disk, and every attach goes to the claiming instance |
| RunProperties.MutationsOfRun | main.go:78-90 | the mutations of a run are none, one attach, one detach, or a detach then an attach |
| RunProperties.DecidedMutations | main.go:78-90 | which of those sequences occurs, by the holder the scan reported |
| Effects.RemoveDevice | main.go:145 | detaching removes every disk exposed under the device name and keeps every other disk |
| Effects.ApplyCall | main.go:145-175 | after a detach, the named instance no longer exposes the device; after an attach, the named instance exposes it; either way every other instance is left exactly as it was |
| Effects.Apply | main.go:29-95 | the calls of a trace keep the zone's instances and their names |
| Effects.ApplyMutationsOnly | main.go:49-74 | only the detach and attach calls of a trace change the zone |
| Effects.SuccessLeavesClaimerSoleHolder | main.go:78-94 | after a successful run, the claiming instance exposes the disk and no other instance does |
| Effects.KeptHolder | main.go:78 | when the scan names the claimer, the claimer is the one holder |
| Effects.AttachToUnheld | main.go:86-89 | attaching a disk nobody holds makes the target its one holder |
| Effects.DetachThenAttach | main.go:79-89 | detaching from the one holder and attaching elsewhere moves the disk |
| Effects.SecondRunIsNoOp | main.go:78 | a second run over the zone that a successful run left behind succeeds without detaching or attaching anything |
| Effects.SoleHolderIsNoOp | main.go:78 | when the claimer is the only holder, the run succeeds without mutations |
| Scenario.MoveZone | main.go:58-59 | `projects/123/zones/europe-west1-b` yields the zone `europe-west1-b` |
| Scenario.MoveClaimer | main.go:65-66 | `new-host.c.my-project.internal` yields the instance name `new-host` |
| Scenario.MoveHolder | main.go:133-136 | the scan finds `old-host` holding `data-1` |
| Scenario.HolderIndex | main.go:128-142 | a non-empty name returned by the scan belongs to the first listed instance exposing the disk |
| Scenario.MoveTrace | main.go:78-90 | taking a disk from another holder, with the detach done on the second poll and the attach on the first: lookups, detach, two polls, attach, one poll, success |
| Scenario.MovedTrace | main.go:78-90 | taking a disk from another holder, with both operations completing, is the lookups, the detach and its polls, then the attach and its polls |
| Scenario.MovedReassign | main.go:79-89 | the decision to move: the detach and its polls, then the attach and its polls, ending in success |
| Scenario.MoveLookups | main.go:49-74 | the scenario's lookups name project `my-project` and zone `europe-west1-b` |
| Scenario.MoveFromOldHost | main.go:29-95 | the full scenario: lookups, detach from `old-host`, two polls of `op-1`, attach of `data-1` to `new-host` with the disk's URL, one poll of `op-2`, success |

## Left out

- The HTTP fetch of metadata values (`getMetadata`, main.go:97-117) is not modelled. It is network I/O, so its three answers are `Script` replies.
- The OAuth transport and building the compute client (main.go:38-46) are not modelled. They call foreign libraries, so only the success or failure of `compute.New` is a `Script` reply. Building the client is not a remote call, so it adds no entry to the trace.
- `time.Sleep` and the 5-second interval between polls (main.go:164, main.go:194) are left out. They carry no logic beyond "poll again".
- Logging (`log.Println`, main.go:25 and throughout) is left out. So is the wrapping of errors by `errors.Trace`. An error is the cause it started from: `Remote(cause)`, `OperationFailed(operation)` or `NotValid(message)`. The " not valid" suffix that `errors.NotValidf` adds to the message is not modelled.
- Waiter.Wait: the unbounded `for true` loops (main.go:150, main.go:180) are modelled over a finite sequence of status replies. A sequence without a terminal reply ends `StillPolling` rather than looping forever.
- Concurrent claims by two instances are not modelled. The program does nothing to guard against them.
- Effects.SuccessLeavesClaimerSoleHolder: this and the other `Effects` lemmas assume the zone as the compute API keeps it. Instance names are non-empty and unique, at most one instance exposes the disk, and the claimer is a listed instance. The program itself assumes this and does not check it.
- Effects.ApplyCall: this is the model's own account of what a completed detach or attach does to the zone. The compute API is not part of this model.

=== FILE: compute.dfy ===
/**
 The data the disk-reassignment run works on: the instances and attached disks
 the compute API reports, the calls the run makes to the metadata server and to
 the compute control plane, the replies it gets back, and how a run ends.

 The metadata server and the control plane are not called: every reply the run
 will receive is fixed up front in a `Script`: one reply per call the run
 makes, and one finite sequence of status replies per operation.
 */
module Compute {

  /** A disk as attached to an instance (`compute.AttachedDisk`): the device
      name it is exposed under inside the instance and the URL of the disk. */
  datatype AttachedDisk = AttachedDisk(deviceName: string, source: string)

  /** An instance of the zone (`compute.Instance`) with its attached disks,
      in the order the API lists them. */
  datatype Instance = Instance(name: string, disks: seq<AttachedDisk>)

  /** The reply to one call: a value, or the error the call returned. The
      error text is opaque; the run never inspects it, only passes it on. */
  datatype Reply<T> = Ok(value: T) | Err(cause: string)

  /** One reply to `ZoneOperations.Get`: the query itself failed, or it
      returned the operation with its status text and whether its `Error`
      field was set. */
  datatype Poll =
    | QueryFailed(cause: string)
    | Polled(status: string, hasError: bool)

  /** The status text the compute API uses for a finished operation. */
  const DoneStatus: string := "DONE"

  /** Every call the run makes to something outside itself, with the
      arguments it passes. */
  datatype Call =
    | MetadataGet(path: string)
    | DiskGet(project: string, zone: string, disk: string)
    | InstancesList(project: string, zone: string)
    | DetachDisk(project: string, zone: string, instance: string, deviceName: string)
    | AttachDisk(project: string, zone: string, instance: string, attached: AttachedDisk)
    | OperationGet(project: string, zone: string, operation: string)
  {
    /** Detach and attach are the only calls that change the cloud. */
    predicate IsMutation() {
      DetachDisk? || AttachDisk?
    }
  }

  /** Why a run failed. */
  datatype Error =
    /** A required flag was empty (`errors.NotValidf`). */
    | NotValid(what: string)
    /** A metadata fetch, the client construction or an API call returned
        this error, passed up unchanged. */
    | Remote(cause: string)
    /** An operation finished with its error payload set; the error names the
        operation ("operation error, see: <name>"). */
    | OperationFailed(operation: string)

  /** How a run, or a part of it, ends. `StillPolling` means the scripted
      status replies ran out before the operation reached a verdict: the
      program itself would keep polling. */
  datatype Outcome = Success | Failure(error: Error) | StillPolling

  /** What a run did and how it ended. */
  datatype Run = Run(calls: seq<Call>, outcome: Outcome)

  /** The replies the outside world gives to one run: one reply per call the
      run makes, and one sequence of status replies per operation. */
  datatype Script = Script(
    service: Reply<()>,              // building the compute client
    projectId: Reply<string>,        // metadata project/project-id
    rawZone: Reply<string>,          // metadata instance/zone
    rawHostname: Reply<string>,      // metadata instance/hostname
    diskGet: Reply<()>,              // Disks.Get
    instances: Reply<seq<Instance>>, // Instances.List
    detach: Reply<string>,           // Instances.DetachDisk: operation name
    detachPolls: seq<Poll>,          // ZoneOperations.Get after the detach
    attach: Reply<string>,           // Instances.AttachDisk: operation name
    attachPolls: seq<Poll>           // ZoneOperations.Get after the attach
  )

  /** The mutating calls of a trace, in order. */
  function Mutations(calls: seq<Call>): (ms: seq<Call>)
    ensures |ms| <= |calls|
    ensures forall k :: 0 <= k < |ms| ==> ms[k].IsMutation()
    ensures forall c :: c in calls && c.IsMutation() ==> c in ms
    ensures forall c :: c in ms ==> c in calls
    decreases |calls|
  {
    if |calls| == 0 then []
    else if calls[0].IsMutation() then [calls[0]] + Mutations(calls[1..])
    else Mutations(calls[1..])
  }

  lemma {:induction false} MutationsAppend(a: seq<Call>, b: seq<Call>)
    ensures Mutations(a + b) == Mutations(a) + Mutations(b)
    decreases |a|
  {
    if |a| == 0 {
      assert a + b == b;
    } else {
      assert (a + b)[1..] == a[1..] + b;
      MutationsAppend(a[1..], b);
    }
  }

  /** A trace without detach or attach calls has no mutations. */
  lemma NoMutations(calls: seq<Call>)
    requires forall k :: 0 <= k < |calls| ==> !calls[k].IsMutation()
    ensures Mutations(calls) == []
  {
  }
}

=== FILE: effects.dfy ===
/**
 What the mutating calls do to the zone, and what a successful run therefore
 achieves. A detach removes the device from the named instance; an attach adds
 the described disk to the named instance. Against the zone the run listed,
 a successful run leaves the disk attached to the claiming instance and to no
 other, so a second run over that zone changes nothing.

 The zone is assumed to be as the compute API keeps it: instance names are
 non-empty and unique, and at most one instance holds the disk.
 */
module Effects {
  import opened Compute
  import opened Locator
  import opened Waiter
  import opened Orchestrator
  import opened RunProperties

  /** The attached disks other than those exposed under `device`, in order. */
  function RemoveDevice(disks: seq<AttachedDisk>, device: string): (kept: seq<AttachedDisk>)
    ensures forall j :: 0 <= j < |kept| ==> kept[j].deviceName != device
    ensures forall d :: d in disks && d.deviceName != device ==> d in kept
    ensures forall d :: d in kept ==> d in disks
    decreases |disks|
  {
    if |disks| == 0 then []
    else if disks[0].deviceName == device then RemoveDevice(disks[1..], device)
    else [disks[0]] + RemoveDevice(disks[1..], device)
  }

  /** The zone after one call. Only detach and attach change it. */
  function ApplyCall(items: seq<Instance>, c: Call): (after: seq<Instance>)
    ensures |after| == |items|
    ensures forall i :: 0 <= i < |items| ==> after[i].name == items[i].name
    ensures !c.IsMutation() ==> after == items
    ensures c.IsMutation() ==> forall i :: 0 <= i < |items| && items[i].name != c.instance ==> after[i] == items[i]
    ensures c.DetachDisk? ==> forall i :: 0 <= i < |items| ==>
      (Holds(after[i], c.deviceName) <==> items[i].name != c.instance && Holds(items[i], c.deviceName))
    ensures c.AttachDisk? ==> forall i :: 0 <= i < |items| ==>
      (Holds(after[i], c.attached.deviceName) <==> items[i].name == c.instance || Holds(items[i], c.attached.deviceName))
  {
    match c
    case DetachDisk(_, _, instance, device) =>
      seq(|items|, i requires 0 <= i < |items| =>
        if items[i].name == instance then Instance(items[i].name, RemoveDevice(items[i].disks, device))
        else items[i])
    case AttachDisk(_, _, instance, attached) =>
      var after := seq(|items|, i requires 0 <= i < |items| =>
        if items[i].name == instance then Instance(items[i].name, items[i].disks + [attached])
        else items[i]);
      assert forall i :: 0 <= i < |items| && items[i].name == instance ==>
        after[i].disks[|after[i].disks| - 1] == attached;
      after
    case _ => items
  }

  /** The zone after a whole trace of calls, applied in order. */
  function Apply(items: seq<Instance>, calls: seq<Call>): (after: seq<Instance>)
    ensures |after| == |items|
    ensures forall i :: 0 <= i < |items| ==> after[i].name == items[i].name
    decreases |calls|
  {
    if |calls| == 0 then items
    else Apply(ApplyCall(items, calls[0]), calls[1..])
  }

  /** Only the mutating calls of a trace matter to the zone. */
  lemma {:induction false} ApplyMutationsOnly(items: seq<Instance>, calls: seq<Call>)
    ensures Apply(items, calls) == Apply(items, Mutations(calls))
    decreases |calls|
  {
    if |calls| > 0 {
      if calls[0].IsMutation() {
        ApplyMutationsOnly(ApplyCall(items, calls[0]), calls[1..]);
        assert ([calls[0]] + Mutations(calls[1..]))[1..] == Mutations(calls[1..]);
      } else {
        ApplyMutationsOnly(items, calls[1..]);
      }
    }
  }

  /** Instance names are non-empty and no two instances share one. */
  predicate WellNamed(items: seq<Instance>) {
    && (forall i :: 0 <= i < |items| ==> items[i].name != "")
    && (forall i, j :: 0 <= i < |items| && 0 <= j < |items| && items[i].name == items[j].name ==> i == j)
  }

  /** No two instances hold the disk. */
  predicate AtMostOneHolder(items: seq<Instance>, disk: string) {
    forall i, j :: 0 <= i < |items| && 0 <= j < |items| && Holds(items[i], disk) && Holds(items[j], disk) ==> i == j
  }

  /** The situation the run is meant for: the lookups succeed, the listed zone
      is well formed, and the claiming instance is one of the listed ones. */
  predicate Claimable(disk: string, s: Script) {
    && disk != "" && QueriesSucceed(s)
    && WellNamed(s.instances.value)
    && AtMostOneHolder(s.instances.value, disk)
    && exists i :: 0 <= i < |s.instances.value| && s.instances.value[i].name == ClaimerOf(s)
  }

  /** The listed zone as the run's own calls leave it. */
  function Settled(disk: string, s: Script): seq<Instance>
    requires s.instances.Ok?
  {
    Apply(s.instances.value, RunSafe(disk, s).calls)
  }

  /** A successful run leaves the claiming instance holding the disk, and no
      other instance holding it. */
  lemma SuccessLeavesClaimerSoleHolder(disk: string, s: Script)
    requires Claimable(disk, s)
    requires RunSafe(disk, s).outcome == Success
    ensures forall i :: 0 <= i < |Settled(disk, s)| ==>
      (Holds(Settled(disk, s)[i], disk) <==> Settled(disk, s)[i].name == ClaimerOf(s))
  {
    var items := s.instances.value;
    var calls := RunSafe(disk, s).calls;
    var project, zone, claimer, holder := s.projectId.value, ZoneOf(s), ClaimerOf(s), HolderOf(disk, s);
    var attach := AttachDisk(project, zone, claimer, AttachSpec(project, zone, disk));
    var detach := DetachDisk(project, zone, holder, disk);
    DecidedMutations(disk, s);
    ApplyMutationsOnly(items, calls);
    if holder == claimer {
      assert Apply(items, calls) == Apply(items, []);
      KeptHolder(items, disk, claimer);
    } else if holder == "" {
      assert Apply(items, calls) == Apply(items, [attach]);
      AttachToUnheld(items, disk, attach);
    } else {
      assert Apply(items, calls) == Apply(items, [detach, attach]);
      DetachThenAttach(items, disk, detach, attach);
    }
  }

  /** The scan names the claimer: it is the one holder. */
  lemma KeptHolder(items: seq<Instance>, disk: string, claimer: string)
    requires WellNamed(items) && AtMostOneHolder(items, disk)
    requires FindAttachedInstance(items, disk) == claimer && claimer != ""
    ensures forall i :: 0 <= i < |items| ==> (Holds(items[i], disk) <==> items[i].name == claimer)
  {
    var i := FirstHolderExists(items, disk);
  }

  /** Attaching to an instance when nobody holds the disk makes it the one holder. */
  lemma AttachToUnheld(items: seq<Instance>, disk: string, attach: Call)
    requires WellNamed(items) && FindAttachedInstance(items, disk) == ""
    requires attach.AttachDisk? && attach.attached.deviceName == disk
    ensures var after := Apply(items, [attach]);
      forall i :: 0 <= i < |after| ==> (Holds(after[i], disk) <==> after[i].name == attach.instance)
  {
    NoHolderIffEmpty(items, disk);
    assert Apply(items, [attach]) == ApplyCall(items, attach);
  }

  /** Detaching from the one holder and attaching to another instance makes
      that instance the one holder. */
  lemma DetachThenAttach(items: seq<Instance>, disk: string, detach: Call, attach: Call)
    requires WellNamed(items) && AtMostOneHolder(items, disk)
    requires detach.DetachDisk? && detach.deviceName == disk
    requires FindAttachedInstance(items, disk) == detach.instance && detach.instance != ""
    requires attach.AttachDisk? && attach.attached.deviceName == disk
    ensures var after := Apply(items, [detach, attach]);
      forall i :: 0 <= i < |after| ==> (Holds(after[i], disk) <==> after[i].name == attach.instance)
  {
    var h := FirstHolderExists(items, disk);
    var mid := ApplyCall(items, detach);
    assert forall j :: 0 <= j < |items| ==> !Holds(mid[j], disk);
    assert Apply(items, [detach, attach]) == Apply(mid, [attach]);
    assert Apply(mid, [attach]) == ApplyCall(mid, attach);
  }

  /** Running again over the zone a successful run left behind, with the same
      metadata, decides that nothing needs doing: no detach, no attach. */
  lemma SecondRunIsNoOp(disk: string, s: Script)
    requires Claimable(disk, s)
    requires RunSafe(disk, s).outcome == Success
    ensures var s2 := s.(instances := Ok(Settled(disk, s)));
      && RunSafe(disk, s2).outcome == Success
      && Mutations(RunSafe(disk, s2).calls) == []
  {
    var items := s.instances.value;
    var after := Settled(disk, s);
    SuccessLeavesClaimerSoleHolder(disk, s);
    var k :| 0 <= k < |items| && items[k].name == ClaimerOf(s);
    var s2 := s.(instances := Ok(after));
    assert ClaimerOf(s2) == ClaimerOf(s);
    assert after[k].name == ClaimerOf(s2);
    SoleHolderIsNoOp(disk, s2, k);
  }

  /** The claiming instance is listed and is the only holder of the disk: the
      run succeeds without detaching or attaching anything. */
  lemma SoleHolderIsNoOp(disk: string, s: Script, k: int)
    requires disk != "" && QueriesSucceed(s)
    requires 0 <= k < |s.instances.value| && s.instances.value[k].name == ClaimerOf(s)
    requires forall i :: 0 <= i < |s.instances.value| ==>
      (Holds(s.instances.value[i], disk) <==> s.instances.value[i].name == ClaimerOf(s))
    ensures RunSafe(disk, s).outcome == Success
    ensures Mutations(RunSafe(disk, s).calls) == []
  {
    var i := FirstHolderExists(s.instances.value, disk);
    AlreadyHeldIsNoOp(disk, s, i);
  }
}

=== FILE: locator.dfy ===
/**
 Finding the instance that currently holds the disk (`findAttachedInstance`,
 main.go:128-142): a first-match scan over the listed instances and, inside
 each, over its attached disks, comparing the device name to the disk name.
 */
module Locator {
  import opened Compute

  /** The instance has some attached disk exposed under `disk`. */
  predicate Holds(inst: Instance, disk: string) {
    exists j :: 0 <= j < |inst.disks| && inst.disks[j].deviceName == disk
  }

  /** `items[i]` holds the disk and no instance listed before it does. */
  predicate IsFirstHolder(items: seq<Instance>, disk: string, i: int) {
    && 0 <= i < |items|
    && Holds(items[i], disk)
    && forall j :: 0 <= j < i ==> !Holds(items[j], disk)
  }

  /** The inner loop: does some attached disk carry the device name `disk`? */
  function HasDevice(disks: seq<AttachedDisk>, disk: string): (b: bool)
    ensures b <==> exists j :: 0 <= j < |disks| && disks[j].deviceName == disk
    decreases |disks|
  {
    if |disks| == 0 then false
    else if disks[0].deviceName == disk then true
    else HasDevice(disks[1..], disk)
  }

  /** The outer loop: the name of the first holder in list order, or `""`
      when no listed instance holds the disk. */
  function FindAttachedInstance(items: seq<Instance>, disk: string): (name: string)
    ensures (forall i :: 0 <= i < |items| ==> !Holds(items[i], disk)) ==> name == ""
    ensures forall i :: IsFirstHolder(items, disk, i) ==> name == items[i].name
    decreases |items|
  {
    if |items| == 0 then ""
    else if HasDevice(items[0].disks, disk) then items[0].name
    else
      var name := FindAttachedInstance(items[1..], disk);
      assert forall i :: IsFirstHolder(items, disk, i) ==> IsFirstHolder(items[1..], disk, i - 1);
      name
  }

  /** When instance names are non-empty, the scan's answer tells exactly
      whether some instance holds the disk. */
  lemma NoHolderIffEmpty(items: seq<Instance>, disk: string)
    requires forall i :: 0 <= i < |items| ==> items[i].name != ""
    ensures FindAttachedInstance(items, disk) == "" <==> forall i :: 0 <= i < |items| ==> !Holds(items[i], disk)
  {
    if exists i :: 0 <= i < |items| && Holds(items[i], disk) {
      var i := FirstHolderExists(items, disk);
      assert FindAttachedInstance(items, disk) == items[i].name;
    }
  }

  /** If some instance holds the disk, there is a first one. */
  lemma FirstHolderExists(items: seq<Instance>, disk: string) returns (i: int)
    requires exists k :: 0 <= k < |items| && Holds(items[k], disk)
    ensures IsFirstHolder(items, disk, i)
  {
    var k :| 0 <= k < |items| && Holds(items[k], disk);
    i := 0;
    while !Holds(items[i], disk)
      invariant 0 <= i <= k
      invariant forall j :: 0 <= j < i ==> !Holds(items[j], disk)
      decreases k - i
    {
      i := i + 1;
    }
  }
}

=== FILE: orchestrator.dfy ===
/**
 The reassignment run (`runSafe`, main.go:29-95) and its two mutating steps
 (`detachDisk`, main.go:144-168, and `attachDisk`, main.go:170-198).

 The run validates the disk flag, builds the compute client, reads the
 project, zone and hostname from the metadata server, checks that the disk
 exists, finds the instance holding it, and then does nothing, attaches, or
 detaches and then attaches. Every error ends the run on the spot. The disk
 flag, a global in the program, is a parameter here.
 */
module Orchestrator {
  import opened Compute
  import opened Segments
  import opened Locator
  import opened Waiter

  /** The metadata keys the run reads. */
  const ProjectIdKey: string := "project/project-id"
  const ZoneKey: string := "instance/zone"
  const HostnameKey: string := "instance/hostname"

  /** What the validation error says is missing. */
  const DiskFlagRequired: string := "--disk flag is required"

  /** The URL of a disk, as `attachDisk` writes into `Source`. */
  function SourceUrl(project: string, zone: string, disk: string): string {
    "https://www.googleapis.com/compute/v1/projects/" + project + "/zones/" + zone + "/disks/" + disk
  }

  /** The disk description `attachDisk` sends: exposed under the disk's own
      name, pointing at the disk in the run's project and zone. */
  function AttachSpec(project: string, zone: string, disk: string): (spec: AttachedDisk)
    ensures spec.deviceName == disk
  {
    AttachedDisk(disk, SourceUrl(project, zone, disk))
  }

  /** The fixed part of the source URL before the project, without its final
      slash: `https://www.googleapis.com/compute/v1/projects`. It is written
      segment by segment, with each `/` apart, so that its split can be
      computed one segment at a time; `SourceUrlPrefixShape` ties it to the
      literal in `SourceUrl`. */
  function ApiPath(): string {
    "https:" + ['/'] + "" + ['/'] + "www.googleapis.com" + ['/'] + "compute" + ['/'] + "v1" + ['/'] + "projects"
  }

  /** The fixed part of the source URL is `ApiPath()` and a slash. */
  lemma SourceUrlPrefixShape()
    ensures "https://www.googleapis.com/compute/v1/projects/" == ApiPath() + ['/']
  {
    PrefixHalves();
    HostShape();
    PathShape();
  }

  lemma PrefixHalves()
    ensures "https://www.googleapis.com/compute/v1/projects/" == "https://www.googleapis.com" + "/compute/v1/projects/"
  {
  }

  lemma HostShape()
    ensures "https://www.googleapis.com" == "https:" + ['/'] + "" + ['/'] + "www.googleapis.com"
  {
  }

  lemma PathShape()
    ensures "/compute/v1/projects/" == ['/'] + "compute" + ['/'] + "v1" + ['/'] + "projects" + ['/']
  {
  }

  /** The segments of `ApiPath()`. */
  lemma ApiPathSegments()
    ensures Split(ApiPath(), '/') == ["https:", "", "www.googleapis.com", "compute", "v1", "projects"]
  {
    var parts := ["https:", "", "www.googleapis.com", "compute", "v1", "projects"];
    SplitNoSeparator(parts[0], '/');
    assert Split(parts[0], '/') == parts[..1];
    var u1 := parts[0] + ['/'] + parts[1];
    SplitExtend(parts[0], parts, 1, '/');
    var u2 := u1 + ['/'] + parts[2];
    SplitExtend(u1, parts, 2, '/');
    var u3 := u2 + ['/'] + parts[3];
    SplitExtend(u2, parts, 3, '/');
    var u4 := u3 + ['/'] + parts[4];
    SplitExtend(u3, parts, 4, '/');
    SplitExtend(u4, parts, 5, '/');
    assert parts[..6] == parts;
  }

  /** The source URL, cut at the slashes around its three names. */
  lemma SourceUrlShape(project: string, zone: string, disk: string)
    ensures SourceUrl(project, zone, disk)
         == ApiPath() + ['/'] + project + ['/'] + "zones" + ['/'] + zone + ['/'] + "disks" + ['/'] + disk
  {
    SourceUrlPrefixShape();
    assert "/zones/" == ['/'] + "zones" + ['/'];
    assert "/disks/" == ['/'] + "disks" + ['/'];
  }

  /** The path segments of the source URL, when the names carry no `/`: the
      URL names exactly the run's project, zone and disk, and ends with the disk. */
  lemma SourceUrlNamesDisk(project: string, zone: string, disk: string)
    requires '/' !in project && '/' !in zone && '/' !in disk
    ensures Split(SourceUrl(project, zone, disk), '/')
         == ["https:", "", "www.googleapis.com", "compute", "v1", "projects", project, "zones", zone, "disks", disk]
    ensures LastSegment(SourceUrl(project, zone, disk), '/') == disk
  {
    SourceUrlShape(project, zone, disk);
    ApiPathSegments();
    SplitUrlTail(ApiPath(), ["https:", "", "www.googleapis.com", "compute", "v1", "projects"],
                 project, "zones", zone, "disks", disk);
  }

  /** Five separator-free names appended, slash by slash, to a split path
      extend its segments by those names. */
  lemma SplitUrlTail(path: string, head: seq<string>, a: string, b: string, c: string, d: string, e: string)
    requires Split(path, '/') == head
    requires '/' !in a && '/' !in b && '/' !in c && '/' !in d && '/' !in e
    ensures Split(path + ['/'] + a + ['/'] + b + ['/'] + c + ['/'] + d + ['/'] + e, '/') == head + [a, b, c, d, e]
  {
    var u1 := path + ['/'] + a;
    var u2 := u1 + ['/'] + b;
    var u3 := u2 + ['/'] + c;
    var u4 := u3 + ['/'] + d;
    SplitLast(path, a, '/');
    SplitLast(u1, b, '/');
    SplitLast(u2, c, '/');
    SplitLast(u3, d, '/');
    SplitLast(u4, e, '/');
  }

  /** `detachDisk`: ask to detach the device `disk` from `instance`, then wait
      for the operation. */
  function Detach(project: string, zone: string, instance: string, disk: string, s: Script): (r: Run)
    ensures |r.calls| >= 1 && r.calls[0] == DetachDisk(project, zone, instance, disk)
    ensures Mutations(r.calls) == [DetachDisk(project, zone, instance, disk)]
    ensures s.detach.Err? ==>
      && r.calls == [DetachDisk(project, zone, instance, disk)]
      && r.outcome == Failure(Remote(s.detach.cause))
    ensures r.outcome == Success <==> s.detach.Ok? && Completes(s.detachPolls)
    ensures s.detach.Ok? ==>
      && r.calls[1..] == Wait(project, zone, s.detach.value, s.detachPolls).calls
      && r.outcome == Wait(project, zone, s.detach.value, s.detachPolls).outcome
  {
    var call := DetachDisk(project, zone, instance, disk);
    match s.detach
    case Err(cause) => Run([call], Failure(Remote(cause)))
    case Ok(operation) =>
      var w := Wait(project, zone, operation, s.detachPolls);
      WaitSucceedsIff(project, zone, operation, s.detachPolls);
      WaitMutatesNothing(project, zone, operation, s.detachPolls);
      MutationsAppend([call], w.calls);
      Run([call] + w.calls, w.outcome)
  }

  /** `attachDisk`: ask to attach the disk to `instance` under its own name,
      then wait for the operation. */
  function Attach(project: string, zone: string, instance: string, disk: string, s: Script): (r: Run)
    ensures |r.calls| >= 1 && r.calls[0] == AttachDisk(project, zone, instance, AttachSpec(project, zone, disk))
    ensures Mutations(r.calls) == [AttachDisk(project, zone, instance, AttachSpec(project, zone, disk))]
    ensures s.attach.Err? ==>
      && r.calls == [AttachDisk(project, zone, instance, AttachSpec(project, zone, disk))]
      && r.outcome == Failure(Remote(s.attach.cause))
    ensures r.outcome == Success <==> s.attach.Ok? && Completes(s.attachPolls)
    ensures s.attach.Ok? ==>
      && r.calls[1..] == Wait(project, zone, s.attach.value, s.attachPolls).calls
      && r.outcome == Wait(project, zone, s.attach.value, s.attachPolls).outcome
  {
    var call := AttachDisk(project, zone, instance, AttachSpec(project, zone, disk));
    match s.attach
    case Err(cause) => Run([call], Failure(Remote(cause)))
    case Ok(operation) =>
      var w := Wait(project, zone, operation, s.attachPolls);
      WaitSucceedsIff(project, zone, operation, s.attachPolls);
      WaitMutatesNothing(project, zone, operation, s.attachPolls);
      MutationsAppend([call], w.calls);
      Run([call] + w.calls, w.outcome)
  }

  /** The detach request is accepted and its operation completes cleanly. */
  predicate DetachCompletes(s: Script) {
    s.detach.Ok? && Completes(s.detachPolls)
  }

  /** The attach request is accepted and its operation completes cleanly. */
  predicate AttachCompletes(s: Script) {
    s.attach.Ok? && Completes(s.attachPolls)
  }

  /** The decision of main.go:78-90, given the current holder (`""` for none)
      and the claiming instance's name: nothing when the claimer already holds
      the disk, a lone attach when nobody does, otherwise a detach from the
      holder and, only once that has completed, an attach. */
  function Reassign(project: string, zone: string, claimer: string, disk: string, holder: string, s: Script): (r: Run)
    ensures holder == claimer ==> r.calls == [] && r.outcome == Success
    ensures holder != claimer && holder == "" ==>
      && Mutations(r.calls) == [AttachDisk(project, zone, claimer, AttachSpec(project, zone, disk))]
      && (r.outcome == Success <==> AttachCompletes(s))
      && (s.attach.Err? ==> r.outcome == Failure(Remote(s.attach.cause)))
    ensures holder != claimer && holder != "" ==>
      && Mutations(r.calls)
         == [DetachDisk(project, zone, holder, disk)]
            + (if DetachCompletes(s) then [AttachDisk(project, zone, claimer, AttachSpec(project, zone, disk))] else [])
      && (r.outcome == Success <==> DetachCompletes(s) && AttachCompletes(s))
      && (s.detach.Err? ==> r.outcome == Failure(Remote(s.detach.cause)))
      && (DetachCompletes(s) && s.attach.Err? ==> r.outcome == Failure(Remote(s.attach.cause)))
    ensures holder != claimer && holder == "" ==> r == Attach(project, zone, claimer, disk, s)
    ensures holder != claimer && holder != "" && !DetachCompletes(s) ==>
      r == Detach(project, zone, holder, disk, s)
    ensures holder != claimer && holder != "" && DetachCompletes(s) ==>
      var d, a := Detach(project, zone, holder, disk, s), Attach(project, zone, claimer, disk, s);
      r == Run(d.calls + a.calls, a.outcome)
    ensures holder != claimer && holder != "" && s.detach.Ok? && !Completes(s.detachPolls) ==>
      r.outcome == Wait(project, zone, s.detach.value, s.detachPolls).outcome
    ensures holder != claimer && (holder == "" || DetachCompletes(s)) && s.attach.Ok? ==>
      r.outcome == Wait(project, zone, s.attach.value, s.attachPolls).outcome
  {
    if holder != claimer then
      if holder != "" then
        var d := Detach(project, zone, holder, disk, s);
        if d.outcome != Success then d
        else
          var a := Attach(project, zone, claimer, disk, s);
          MutationsAppend(d.calls, a.calls);
          Run(d.calls + a.calls, a.outcome)
      else Attach(project, zone, claimer, disk, s)
    else Run([], Success)
  }

  /** Every reply before the decision is a success: the client is built, the
      three metadata reads, the disk lookup and the instance listing succeed. */
  predicate QueriesSucceed(s: Script) {
    && s.service.Ok? && s.projectId.Ok? && s.rawZone.Ok? && s.rawHostname.Ok?
    && s.diskGet.Ok? && s.instances.Ok?
  }

  /** The zone the run works in: the last `/`-separated segment of the zone metadata. */
  function ZoneOf(s: Script): (zone: string)
    requires s.rawZone.Ok?
    ensures '/' !in zone
    ensures IsLastSegment(s.rawZone.value, '/', zone)
  {
    LastSegment(s.rawZone.value, '/')
  }

  /** The claiming instance: the first `.`-separated segment of the hostname. */
  function ClaimerOf(s: Script): (name: string)
    requires s.rawHostname.Ok?
    ensures '.' !in name
    ensures IsFirstSegment(s.rawHostname.value, '.', name)
  {
    FirstSegment(s.rawHostname.value, '.')
  }

  /** `runSafe`: the whole run for the disk named by the `--disk` flag. */
  function RunSafe(disk: string, s: Script): (r: Run)
    ensures disk == "" ==> r.calls == [] && r.outcome == Failure(NotValid(DiskFlagRequired))
    ensures r.outcome == Success ==> disk != "" && QueriesSucceed(s)
    ensures forall c :: c in r.calls && c.IsMutation() ==> disk != "" && QueriesSucceed(s)
  {
    if disk == "" then Run([], Failure(NotValid(DiskFlagRequired)))
    else if s.service.Err? then Run([], Failure(Remote(s.service.cause)))
    else
      var c1 := [MetadataGet(ProjectIdKey)];
      match s.projectId
      case Err(cause) => Run(c1, Failure(Remote(cause)))
      case Ok(project) =>
        var c2 := c1 + [MetadataGet(ZoneKey)];
        match s.rawZone
        case Err(cause) => Run(c2, Failure(Remote(cause)))
        case Ok(_) =>
          var zone := ZoneOf(s);
          var c3 := c2 + [MetadataGet(HostnameKey)];
          match s.rawHostname
          case Err(cause) => Run(c3, Failure(Remote(cause)))
          case Ok(_) =>
            var claimer := ClaimerOf(s);
            var c4 := c3 + [DiskGet(project, zone, disk)];
            match s.diskGet
            case Err(cause) => Run(c4, Failure(Remote(cause)))
            case Ok(_) =>
              var c5 := c4 + [InstancesList(project, zone)];
              match s.instances
              case Err(cause) => Run(c5, Failure(Remote(cause)))
              case Ok(items) =>
                var holder := FindAttachedInstance(items, disk);
                var r := Reassign(project, zone, claimer, disk, holder, s);
                Run(c5 + r.calls, r.outcome)
  }

  /** The five queries a run makes before it decides anything, in order. */
  function Lookups(disk: string, s: Script): (qs: seq<Call>)
    requires QueriesSucceed(s)
    ensures Mutations(qs) == []
  {
    var project := s.projectId.value;
    var zone := ZoneOf(s);
    var qs := [MetadataGet(ProjectIdKey), MetadataGet(ZoneKey), MetadataGet(HostnameKey),
               DiskGet(project, zone, disk), InstancesList(project, zone)];
    NoMutations(qs);
    qs
  }

  /** The current holder of the disk, as the scan reports it. */
  function HolderOf(disk: string, s: Script): string
    requires s.instances.Ok?
  {
    FindAttachedInstance(s.instances.value, disk)
  }

  /** Once every query succeeds, a run is those queries followed by the
      reassignment decided from the scan. */
  lemma RunAfterQueries(disk: string, s: Script)
    requires disk != "" && QueriesSucceed(s)
    ensures var d := Reassign(s.projectId.value, ZoneOf(s), ClaimerOf(s), disk, HolderOf(disk, s), s);
            RunSafe(disk, s) == Run(Lookups(disk, s) + d.calls, d.outcome)
  {
  }
}

=== FILE: properties.dfy ===
/**
 What a whole run of `runSafe` does, stated over the trace of calls it makes:
 which calls never happen, which happen exactly once, and in what order.
 */
module RunProperties {
  import opened Compute
  import opened Segments
  import opened Locator
  import opened Waiter
  import opened Orchestrator

  /** An empty disk flag is rejected before any call at all: no metadata
      read, no disk lookup, no listing, no detach, no attach. */
  lemma EmptyDiskMakesNoCalls(s: Script)
    ensures RunSafe("", s).calls == []
    ensures RunSafe("", s).outcome == Failure(NotValid(DiskFlagRequired))
  {
  }

  /** A failed disk lookup ends the run with that error: the lookup is the
      last call, and no listing, detach or attach happens. */
  lemma MissingDiskStopsRun(disk: string, s: Script)
    requires disk != ""
    requires s.service.Ok? && s.projectId.Ok? && s.rawZone.Ok? && s.rawHostname.Ok?
    requires s.diskGet.Err?
    ensures var r := RunSafe(disk, s);
      && r.outcome == Failure(Remote(s.diskGet.cause))
      && r.calls == [MetadataGet(ProjectIdKey), MetadataGet(ZoneKey), MetadataGet(HostnameKey),
                     DiskGet(s.projectId.value, ZoneOf(s), disk)]
      && |r.calls| == 4
      && r.calls[3] == DiskGet(s.projectId.value, ZoneOf(s), disk)
      && forall c :: c in r.calls ==> !c.InstancesList? && !c.IsMutation()
  {
  }

  /** When the queries succeed, the run starts with them in program order:
      project id, zone, hostname, disk lookup, listing. */
  lemma QueriesComeFirst(disk: string, s: Script)
    requires disk != "" && QueriesSucceed(s)
    ensures var r := RunSafe(disk, s);
      && |r.calls| >= 5
      && r.calls[..5] == Lookups(disk, s)
      && Mutations(r.calls)
         == Mutations(Reassign(s.projectId.value, ZoneOf(s), ClaimerOf(s), disk, HolderOf(disk, s), s).calls)
  {
    RunAfterQueries(disk, s);
    var d := Reassign(s.projectId.value, ZoneOf(s), ClaimerOf(s), disk, HolderOf(disk, s), s);
    assert (Lookups(disk, s) + d.calls)[..5] == Lookups(disk, s);
    MutationsAppend(Lookups(disk, s), d.calls);
  }

  /** The first listed holder is the claiming instance itself: the run
      succeeds without detaching or attaching anything. */
  lemma AlreadyHeldIsNoOp(disk: string, s: Script, i: int)
    requires disk != "" && QueriesSucceed(s)
    requires IsFirstHolder(s.instances.value, disk, i)
    requires s.instances.value[i].name == ClaimerOf(s)
    ensures RunSafe(disk, s).outcome == Success
    ensures Mutations(RunSafe(disk, s).calls) == []
    ensures RunSafe(disk, s).calls == Lookups(disk, s)
  {
    RunAfterQueries(disk, s);
    QueriesComeFirst(disk, s);
  }

  /** Nobody holds the disk: no detach, exactly one attach, to the claiming
      instance, of the disk under its own name; the run succeeds exactly when
      that attach completes. */
  lemma UnheldIsAttachOnly(disk: string, s: Script)
    requires disk != "" && QueriesSucceed(s)
    requires forall i :: 0 <= i < |s.instances.value| ==> !Holds(s.instances.value[i], disk)
    requires ClaimerOf(s) != ""
    ensures var project := s.projectId.value;
            var zone := ZoneOf(s);
      Mutations(RunSafe(disk, s).calls)
      == [AttachDisk(project, zone, ClaimerOf(s), AttachedDisk(disk, SourceUrl(project, zone, disk)))]
    ensures var a := Attach(s.projectId.value, ZoneOf(s), ClaimerOf(s), disk, s);
      RunSafe(disk, s) == Run(Lookups(disk, s) + a.calls, a.outcome)
    ensures RunSafe(disk, s).outcome == Success <==> AttachCompletes(s)
    ensures s.attach.Err? ==> RunSafe(disk, s).outcome == Failure(Remote(s.attach.cause))
  {
    RunAfterQueries(disk, s);
    QueriesComeFirst(disk, s);
  }

  /** Another instance is the first holder: the run detaches the disk from it
      exactly once, and attaches it to the claiming instance only after that
      detach has completed; a failed detach is the run's error. */
  lemma HeldElsewhereDetachesFirst(disk: string, s: Script, i: int)
    requires disk != "" && QueriesSucceed(s)
    requires IsFirstHolder(s.instances.value, disk, i)
    requires s.instances.value[i].name != ClaimerOf(s)
    requires s.instances.value[i].name != ""
    ensures var project := s.projectId.value;
            var zone := ZoneOf(s);
            var detach := DetachDisk(project, zone, s.instances.value[i].name, disk);
            var attach := AttachDisk(project, zone, ClaimerOf(s), AttachedDisk(disk, SourceUrl(project, zone, disk)));
      Mutations(RunSafe(disk, s).calls) == (if DetachCompletes(s) then [detach, attach] else [detach])
    ensures RunSafe(disk, s).outcome == Success <==> DetachCompletes(s) && AttachCompletes(s)
    ensures s.detach.Err? ==> RunSafe(disk, s).outcome == Failure(Remote(s.detach.cause))
  {
    RunAfterQueries(disk, s);
    QueriesComeFirst(disk, s);
  }

  /** A detach or attach call of any run concerns the flagged disk, under its
      own device name, and an attach always goes to the claiming instance. */
  lemma OnlyTheDiskMoves(disk: string, s: Script)
    ensures forall c :: c in RunSafe(disk, s).calls && c.DetachDisk? ==> c.deviceName == disk
    ensures forall c :: c in RunSafe(disk, s).calls && c.AttachDisk? ==>
      c.attached.deviceName == disk && s.rawHostname.Ok? && c.instance == ClaimerOf(s)
  {
    var r := RunSafe(disk, s);
    if disk != "" && QueriesSucceed(s) {
      var ms := Mutations(r.calls);
      MutationsOfRun(disk, s);
      forall c | c in r.calls && c.IsMutation()
        ensures c in ms
      {
      }
    }
  }

  /** The mutating calls of a run whose lookups succeed, one of the four
      sequences the decision table allows. */
  lemma MutationsOfRun(disk: string, s: Script)
    requires disk != "" && QueriesSucceed(s)
    ensures var project, zone := s.projectId.value, ZoneOf(s);
            var attach := AttachDisk(project, zone, ClaimerOf(s), AttachSpec(project, zone, disk));
            var detach := DetachDisk(project, zone, HolderOf(disk, s), disk);
            var ms := Mutations(RunSafe(disk, s).calls);
      ms == [] || ms == [attach] || ms == [detach] || ms == [detach, attach]
  {
    QueriesComeFirst(disk, s);
  }

  /** The mutating calls of a run whose lookups succeed, by the holder the
      scan reported: none when the claimer holds the disk, one attach when
      nobody does, a detach then an attach when another instance does and
      the run succeeds. */
  lemma DecidedMutations(disk: string, s: Script)
    requires disk != "" && QueriesSucceed(s)
    ensures var project, zone, claimer, holder := s.projectId.value, ZoneOf(s), ClaimerOf(s), HolderOf(disk, s);
            var attach := AttachDisk(project, zone, claimer, AttachSpec(project, zone, disk));
            var detach := DetachDisk(project, zone, holder, disk);
            var r := RunSafe(disk, s);
      && (holder == claimer ==> Mutations(r.calls) == [])
      && (holder != claimer && holder == "" ==> Mutations(r.calls) == [attach])
      && (holder != claimer && holder != "" && r.outcome == Success ==> Mutations(r.calls) == [detach, attach])
  {
    QueriesComeFirst(disk, s);
    RunAfterQueries(disk, s);
  }

  /** Every failed lookup ends the run at once with its own error: the calls
      made are exactly those before it and the failing one, and nothing is
      looked up, detached or attached after it. Building the compute client
      is not a remote call, so its failure leaves the trace empty. */
  lemma LookupErrorStopsRun(disk: string, s: Script)
    requires disk != ""
    ensures s.service.Err? ==> RunSafe(disk, s) == Run([], Failure(Remote(s.service.cause)))
    ensures s.service.Ok? && s.projectId.Err? ==>
      RunSafe(disk, s) == Run([MetadataGet(ProjectIdKey)], Failure(Remote(s.projectId.cause)))
    ensures s.service.Ok? && s.projectId.Ok? && s.rawZone.Err? ==>
      RunSafe(disk, s) == Run([MetadataGet(ProjectIdKey), MetadataGet(ZoneKey)], Failure(Remote(s.rawZone.cause)))
    ensures s.service.Ok? && s.projectId.Ok? && s.rawZone.Ok? && s.rawHostname.Err? ==>
      RunSafe(disk, s)
      == Run([MetadataGet(ProjectIdKey), MetadataGet(ZoneKey), MetadataGet(HostnameKey)],
             Failure(Remote(s.rawHostname.cause)))
    ensures s.service.Ok? && s.projectId.Ok? && s.rawZone.Ok? && s.rawHostname.Ok? && s.diskGet.Ok?
            && s.instances.Err? ==>
      RunSafe(disk, s)
      == Run([MetadataGet(ProjectIdKey), MetadataGet(ZoneKey), MetadataGet(HostnameKey),
              DiskGet(s.projectId.value, ZoneOf(s), disk), InstancesList(s.projectId.value, ZoneOf(s))],
             Failure(Remote(s.instances.cause)))
  {
  }

  /** Another instance, the `i`th listed, is the first holder of the disk,
      and the detach operation's first terminal reply is not a clean `DONE`:
      the run ends there with that reply's verdict (the operation's name when
      its error is set, the query error when the status query failed), and
      the disk is never attached. */
  lemma DetachOperationFailsRun(disk: string, s: Script, i: int, k: nat)
    requires disk != "" && QueriesSucceed(s)
    requires IsFirstHolder(s.instances.value, disk, i)
    requires s.instances.value[i].name != ClaimerOf(s) && s.instances.value[i].name != ""
    requires s.detach.Ok? && k < |s.detachPolls| && Terminal(s.detachPolls[k])
    requires forall j :: 0 <= j < k ==> !Terminal(s.detachPolls[j])
    requires s.detachPolls[k].QueryFailed? || s.detachPolls[k].hasError
    ensures var project, zone := s.projectId.value, ZoneOf(s);
      RunSafe(disk, s).calls
      == Lookups(disk, s) + [DetachDisk(project, zone, s.instances.value[i].name, disk)]
         + Queries(project, zone, s.detach.value, k + 1)
    ensures RunSafe(disk, s).outcome == Verdict(s.detachPolls[k], s.detach.value)
    ensures s.detachPolls[k].Polled? ==> RunSafe(disk, s).outcome == Failure(OperationFailed(s.detach.value))
    ensures s.detachPolls[k].QueryFailed? ==> RunSafe(disk, s).outcome == Failure(Remote(s.detachPolls[k].cause))
    ensures forall c :: c in RunSafe(disk, s).calls ==> !c.AttachDisk?
  {
    StopsAtFirstTerminal(s.projectId.value, ZoneOf(s), s.detach.value, s.detachPolls, k);
    DetachFailsBeforeAttach(disk, s, i);
  }

  /** Another instance, the `i`th listed, is the first holder of the disk,
      and the detach replies run out before a terminal one: the run is still
      waiting for the detach, and the disk has not been attached. */
  lemma DetachPendingRun(disk: string, s: Script, i: int)
    requires disk != "" && QueriesSucceed(s)
    requires IsFirstHolder(s.instances.value, disk, i)
    requires s.instances.value[i].name != ClaimerOf(s) && s.instances.value[i].name != ""
    requires s.detach.Ok? && forall j :: 0 <= j < |s.detachPolls| ==> !Terminal(s.detachPolls[j])
    ensures var project, zone := s.projectId.value, ZoneOf(s);
      RunSafe(disk, s).calls
      == Lookups(disk, s) + [DetachDisk(project, zone, s.instances.value[i].name, disk)]
         + Queries(project, zone, s.detach.value, |s.detachPolls|)
    ensures RunSafe(disk, s).outcome == StillPolling
    ensures forall c :: c in RunSafe(disk, s).calls ==> !c.AttachDisk?
  {
    WaitsWithoutTerminal(s.projectId.value, ZoneOf(s), s.detach.value, s.detachPolls);
    WaitSucceedsIff(s.projectId.value, ZoneOf(s), s.detach.value, s.detachPolls);
    DetachFailsBeforeAttach(disk, s, i);
  }

  /** When another instance, the `i`th listed, is the first holder of the
      disk and the detach does not complete, the run's outcome is the detach
      wait's and no attach call is made. */
  lemma DetachFailsBeforeAttach(disk: string, s: Script, i: int)
    requires disk != "" && QueriesSucceed(s)
    requires IsFirstHolder(s.instances.value, disk, i)
    requires s.instances.value[i].name != ClaimerOf(s) && s.instances.value[i].name != ""
    requires s.detach.Ok? && !Completes(s.detachPolls)
    ensures var project, zone := s.projectId.value, ZoneOf(s);
      RunSafe(disk, s)
      == Run(Lookups(disk, s) + Detach(project, zone, s.instances.value[i].name, disk, s).calls,
             Wait(project, zone, s.detach.value, s.detachPolls).outcome)
    ensures forall c :: c in RunSafe(disk, s).calls ==> !c.AttachDisk?
  {
    RunAfterQueries(disk, s);
    QueriesComeFirst(disk, s);
  }

  /** The attach is due (nobody holds the disk, or its detach completed) and
      the attach operation's first terminal reply is not a clean `DONE`: the
      run ends with that reply's verdict. */
  lemma AttachOperationFailsRun(disk: string, s: Script, k: nat)
    requires disk != "" && QueriesSucceed(s)
    requires HolderOf(disk, s) != ClaimerOf(s) && (HolderOf(disk, s) == "" || DetachCompletes(s))
    requires s.attach.Ok? && k < |s.attachPolls| && Terminal(s.attachPolls[k])
    requires forall j :: 0 <= j < k ==> !Terminal(s.attachPolls[j])
    requires s.attachPolls[k].QueryFailed? || s.attachPolls[k].hasError
    ensures var project, zone := s.projectId.value, ZoneOf(s);
      RunSafe(disk, s).calls
      == Lookups(disk, s) + DetachBefore(disk, s)
         + [AttachDisk(project, zone, ClaimerOf(s), AttachSpec(project, zone, disk))]
         + Queries(project, zone, s.attach.value, k + 1)
    ensures RunSafe(disk, s).outcome == Verdict(s.attachPolls[k], s.attach.value)
    ensures s.attachPolls[k].Polled? ==> RunSafe(disk, s).outcome == Failure(OperationFailed(s.attach.value))
    ensures s.attachPolls[k].QueryFailed? ==> RunSafe(disk, s).outcome == Failure(Remote(s.attachPolls[k].cause))
  {
    StopsAtFirstTerminal(s.projectId.value, ZoneOf(s), s.attach.value, s.attachPolls, k);
    AttachDueRun(disk, s);
  }

  /** The attach is due and its replies run out before a terminal one: the
      run is still waiting for the attach. */
  lemma AttachPendingRun(disk: string, s: Script)
    requires disk != "" && QueriesSucceed(s)
    requires HolderOf(disk, s) != ClaimerOf(s) && (HolderOf(disk, s) == "" || DetachCompletes(s))
    requires s.attach.Ok? && forall j :: 0 <= j < |s.attachPolls| ==> !Terminal(s.attachPolls[j])
    ensures var project, zone := s.projectId.value, ZoneOf(s);
      RunSafe(disk, s).calls
      == Lookups(disk, s) + DetachBefore(disk, s)
         + [AttachDisk(project, zone, ClaimerOf(s), AttachSpec(project, zone, disk))]
         + Queries(project, zone, s.attach.value, |s.attachPolls|)
    ensures RunSafe(disk, s).outcome == StillPolling
  {
    WaitsWithoutTerminal(s.projectId.value, ZoneOf(s), s.attach.value, s.attachPolls);
    AttachDueRun(disk, s);
  }

  /** When the attach is due and accepted, the run is the lookups, whatever
      came before the attach, the attach call and its poll loop, with that
      loop's outcome. */
  lemma AttachDueRun(disk: string, s: Script)
    requires disk != "" && QueriesSucceed(s)
    requires HolderOf(disk, s) != ClaimerOf(s) && (HolderOf(disk, s) == "" || DetachCompletes(s))
    requires s.attach.Ok?
    ensures var project, zone := s.projectId.value, ZoneOf(s);
            var w := Wait(project, zone, s.attach.value, s.attachPolls);
      RunSafe(disk, s)
      == Run(Lookups(disk, s) + DetachBefore(disk, s)
             + [AttachDisk(project, zone, ClaimerOf(s), AttachSpec(project, zone, disk))] + w.calls,
             w.outcome)
  {
    var project, zone := s.projectId.value, ZoneOf(s);
    var a := Attach(project, zone, ClaimerOf(s), disk, s);
    assert a.calls == [a.calls[0]] + a.calls[1..];
    RunAfterQueries(disk, s);
  }

  /** The calls a run makes between its lookups and its attach: none when
      nobody holds the disk, otherwise the detach from the holder and its
      status queries. */
  function DetachBefore(disk: string, s: Script): seq<Call>
    requires QueriesSucceed(s)
  {
    if HolderOf(disk, s) == "" then []
    else Detach(s.projectId.value, ZoneOf(s), HolderOf(disk, s), disk, s).calls
  }
}

=== FILE: scenario.dfy ===
/**
 One complete run, end to end: disk `data-1` is attached to `old-host`, and
 `new-host` claims it. The run reads its metadata, finds the disk, finds
 `old-host` holding it, detaches it (operation `op-1`, done on the second
 poll), attaches it to `new-host` (operation `op-2`, done on the first poll)
 and succeeds.
 */
module Scenario {
  import opened Compute
  import opened Segments
  import opened Locator
  import opened Waiter
  import opened Orchestrator

  /** The replies of the scenario. */
  function MoveScript(): Script {
    Script(
      service := Ok(()),
      projectId := Ok("my-project"),
      rawZone := Ok("projects/123/zones/europe-west1-b"),
      rawHostname := Ok("new-host.c.my-project.internal"),
      diskGet := Ok(()),
      instances := Ok([
        Instance("old-host", [AttachedDisk("boot", "b"), AttachedDisk("data-1", "d")]),
        Instance("new-host", [AttachedDisk("boot", "b")])]),
      detach := Ok("op-1"),
      detachPolls := [Polled("RUNNING", false), Polled(DoneStatus, false)],
      attach := Ok("op-2"),
      attachPolls := [Polled(DoneStatus, false)])
  }

  /** The zone is the last segment of the zone path. */
  lemma MoveZone()
    ensures ZoneOf(MoveScript()) == "europe-west1-b"
  {
    var raw := MoveScript().rawZone.value;
    assert raw[|raw| - 14..] == "europe-west1-b";
    assert IsLastSegment(raw, '/', "europe-west1-b");
    LastSegmentUnique(raw, '/', ZoneOf(MoveScript()), "europe-west1-b");
  }

  /** The claiming instance is the first segment of the hostname. */
  lemma MoveClaimer()
    ensures ClaimerOf(MoveScript()) == "new-host"
  {
    var raw := MoveScript().rawHostname.value;
    assert raw[..8] == "new-host";
    assert IsFirstSegment(raw, '.', "new-host");
    FirstSegmentUnique(raw, '.', ClaimerOf(MoveScript()), "new-host");
  }

  /** The scan finds `old-host`, the first listed instance, holding the disk. */
  lemma MoveHolder()
    ensures HolderOf("data-1", MoveScript()) == "old-host"
  {
    var items := MoveScript().instances.value;
    assert items[0].disks[1].deviceName == "data-1";
    assert IsFirstHolder(items, "data-1", 0);
  }

  /** Any run in which `claimer` takes `disk` from another `holder`, with
      the detach done on the second status poll and the attach on the
      first, makes the lookups, the detach and its two status queries, the
      attach and its one status query, and succeeds. */
  lemma MoveTrace(disk: string, holder: string, claimer: string, op1: string, op2: string, s: Script)
    requires disk != "" && QueriesSucceed(s)
    requires holder != "" && holder != claimer
    requires ClaimerOf(s) == claimer && HolderOf(disk, s) == holder
    requires s.detach == Ok(op1) && s.detachPolls == [Polled("RUNNING", false), Polled(DoneStatus, false)]
    requires s.attach == Ok(op2) && s.attachPolls == [Polled(DoneStatus, false)]
    ensures var project, zone := s.projectId.value, ZoneOf(s);
      RunSafe(disk, s)
      == Run(Lookups(disk, s)
             + [DetachDisk(project, zone, holder, disk),
                OperationGet(project, zone, op1), OperationGet(project, zone, op1),
                AttachDisk(project, zone, claimer, AttachedDisk(disk, SourceUrl(project, zone, disk))),
                OperationGet(project, zone, op2)],
             Success)
  {
    var project, zone := s.projectId.value, ZoneOf(s);
    assert CompletesAt(s.detachPolls, 1);
    assert CompletesAt(s.attachPolls, 0);
    var i := HolderIndex(disk, s);
    MovedTrace(disk, s, i, 1, 0);
    MovesSpelledOut(DetachDisk(project, zone, holder, disk),
                    AttachDisk(project, zone, claimer, AttachSpec(project, zone, disk)), project, zone, op1, op2);
  }

  /** A non-empty holder reported by the scan is the name of the first
      listed instance that holds the disk. */
  lemma HolderIndex(disk: string, s: Script) returns (i: int)
    requires s.instances.Ok? && HolderOf(disk, s) != ""
    ensures IsFirstHolder(s.instances.value, disk, i)
    ensures s.instances.value[i].name == HolderOf(disk, s)
  {
    i := FirstHolderExists(s.instances.value, disk);
  }

  /** The scenario's mutating calls and their status queries, one by one.
      A step of `MoveTrace`, stated on its own so that the sequence equality
      is proved without the run in context. */
  lemma MovesSpelledOut(detach: Call, attach: Call, project: string, zone: string, op1: string, op2: string)
    ensures [detach] + Queries(project, zone, op1, 2) + [attach] + Queries(project, zone, op2, 1)
         == [detach, OperationGet(project, zone, op1), OperationGet(project, zone, op1),
             attach, OperationGet(project, zone, op2)]
  {
    assert Queries(project, zone, op1, 2) == [OperationGet(project, zone, op1), OperationGet(project, zone, op1)];
    assert Queries(project, zone, op2, 1) == [OperationGet(project, zone, op2)];
  }

  /** A run that moves the disk from another first holder, the `i`th listed
      instance, with both operations completing, makes the lookups, the
      detach, one status query per reply up to the detach's completion, the
      attach, and one status query per reply up to the attach's completion;
      and it succeeds. */
  lemma MovedTrace(disk: string, s: Script, i: int, k1: nat, k2: nat)
    requires disk != "" && QueriesSucceed(s)
    requires IsFirstHolder(s.instances.value, disk, i)
    requires s.instances.value[i].name != "" && s.instances.value[i].name != ClaimerOf(s)
    requires s.detach.Ok? && k1 < |s.detachPolls| && CompletesAt(s.detachPolls, k1)
    requires s.attach.Ok? && k2 < |s.attachPolls| && CompletesAt(s.attachPolls, k2)
    ensures var project, zone := s.projectId.value, ZoneOf(s);
      RunSafe(disk, s)
      == Run(Lookups(disk, s)
             + ([DetachDisk(project, zone, HolderOf(disk, s), disk)]
                + Queries(project, zone, s.detach.value, k1 + 1)
                + [AttachDisk(project, zone, ClaimerOf(s), AttachSpec(project, zone, disk))]
                + Queries(project, zone, s.attach.value, k2 + 1)),
             Success)
  {
    RunAfterQueries(disk, s);
    MovedReassign(s.projectId.value, ZoneOf(s), ClaimerOf(s), disk, HolderOf(disk, s), s, k1, k2);
  }

  /** The decision to move the disk, with both operations completing: the
      detach and its queries, then the attach and its queries. */
  lemma MovedReassign(project: string, zone: string, claimer: string, disk: string, holder: string,
                      s: Script, k1: nat, k2: nat)
    requires holder != "" && holder != claimer
    requires s.detach.Ok? && k1 < |s.detachPolls| && CompletesAt(s.detachPolls, k1)
    requires s.attach.Ok? && k2 < |s.attachPolls| && CompletesAt(s.attachPolls, k2)
    ensures Reassign(project, zone, claimer, disk, holder, s)
         == Run([DetachDisk(project, zone, holder, disk)]
                + Queries(project, zone, s.detach.value, k1 + 1)
                + [AttachDisk(project, zone, claimer, AttachSpec(project, zone, disk))]
                + Queries(project, zone, s.attach.value, k2 + 1),
                Success)
  {
    StopsAtFirstTerminal(project, zone, s.detach.value, s.detachPolls, k1);
    StopsAtFirstTerminal(project, zone, s.attach.value, s.attachPolls, k2);
    var dq := Queries(project, zone, s.detach.value, k1 + 1);
    var aq := Queries(project, zone, s.attach.value, k2 + 1);
    assert Detach(project, zone, holder, disk, s) == Run([DetachDisk(project, zone, holder, disk)] + dq, Success);
    assert Attach(project, zone, claimer, disk, s)
        == Run([AttachDisk(project, zone, claimer, AttachSpec(project, zone, disk))] + aq, Success);
  }

  /** The scenario's lookups: the three metadata reads, then the disk and
      the listing in `europe-west1-b` of `my-project`. */
  lemma MoveLookups()
    ensures Lookups("data-1", MoveScript())
         == [MetadataGet(ProjectIdKey), MetadataGet(ZoneKey), MetadataGet(HostnameKey),
             DiskGet("my-project", "europe-west1-b", "data-1"), InstancesList("my-project", "europe-west1-b")]
  {
    MoveZone();
  }

  /** The scenario itself: the five lookups, the detach of `data-1` from
      `old-host` and its two status polls, the attach to `new-host` of
      `data-1` under its own name with the disk's URL, and its one status
      poll; the run succeeds. */
  lemma MoveFromOldHost()
    ensures var project, zone := "my-project", "europe-west1-b";
      RunSafe("data-1", MoveScript())
      == Run(Lookups("data-1", MoveScript())
             + [DetachDisk(project, zone, "old-host", "data-1"),
                OperationGet(project, zone, "op-1"), OperationGet(project, zone, "op-1"),
                AttachDisk(project, zone, "new-host", AttachedDisk("data-1", SourceUrl(project, zone, "data-1"))),
                OperationGet(project, zone, "op-2")],
             Success)
  {
    MoveZone();
    MoveClaimer();
    MoveHolder();
    MoveTrace("data-1", "old-host", "new-host", "op-1", "op-2", MoveScript());
  }
}

=== FILE: segments.dfy ===
/**
 This module models Go's `strings.Split` for a one-character separator, and the
 two ways the program picks a segment out of a metadata value: the zone is the
 LAST `/`-separated segment of `instance/zone`, the instance name is the FIRST
 `.`-separated segment of `instance/hostname`.
 */
module Segments {

  /** Splits `s` around every occurrence of `c`. Like Go's `strings.Split`
      with a non-empty separator, the result always has at least one segment
      (`Split("", c) == [""]`) and has one more segment than `s` has separators. */
  function Split(s: string, c: char): (parts: seq<string>)
    ensures |parts| >= 1
    decreases |s|
  {
    if |s| == 0 then [""]
    else
      var rest := Split(s[1..], c);
      if s[0] == c then [""] + rest
      else [[s[0]] + rest[0]] + rest[1..]
  }

  /** Glues segments back together with `c` between neighbours (Go's `strings.Join`). */
  function Join(parts: seq<string>, c: char): string
    requires |parts| >= 1
    decreases |parts|
  {
    if |parts| == 1 then parts[0]
    else parts[0] + [c] + Join(parts[1..], c)
  }

  /** Number of occurrences of `c` in `s`. */
  function Occurrences(s: string, c: char): nat
    decreases |s|
  {
    if |s| == 0 then 0
    else (if s[0] == c then 1 else 0) + Occurrences(s[1..], c)
  }

  /** Splitting yields exactly one more segment than there are separators. */
  lemma {:induction false} SplitCount(s: string, c: char)
    ensures |Split(s, c)| == Occurrences(s, c) + 1
    decreases |s|
  {
    if |s| > 0 {
      SplitCount(s[1..], c);
    }
  }

  /** Joining the segments gives back the string that was split. */
  lemma {:induction false} JoinSplit(s: string, c: char)
    ensures Join(Split(s, c), c) == s
    decreases |s|
  {
    if |s| > 0 {
      var rest := Split(s[1..], c);
      JoinSplit(s[1..], c);
      if s[0] == c {
        assert Split(s, c)[1..] == rest;
        assert s == [s[0]] + s[1..];
      } else {
        var parts := Split(s, c);
        if |rest| == 1 {
          assert s == [s[0]] + s[1..];
        } else {
          assert parts[1..] == rest[1..];
          assert Join(rest, c) == rest[0] + [c] + Join(rest[1..], c);
          assert s == [s[0]] + s[1..];
        }
      }
    }
  }

  /** Splitting a join of separator-free segments gives back the segments. */
  lemma {:induction false} SplitJoin(parts: seq<string>, c: char)
    requires |parts| >= 1
    requires forall k :: 0 <= k < |parts| ==> c !in parts[k]
    ensures Split(Join(parts, c), c) == parts
    decreases |parts|
  {
    if |parts| == 1 {
      SplitNoSeparator(parts[0], c);
    } else {
      SplitJoin(parts[1..], c);
      SplitAround(parts[0], Join(parts[1..], c), c);
      SplitNoSeparator(parts[0], c);
      assert [parts[0]] + parts[1..] == parts;
    }
  }

  /** A string without the separator is a single segment. */
  lemma {:induction false} SplitNoSeparator(s: string, c: char)
    requires c !in s
    ensures Split(s, c) == [s]
    decreases |s|
  {
    if |s| > 0 {
      SplitNoSeparator(s[1..], c);
      assert [s[0]] + s[1..] == s;
    }
  }

  /** Splitting `a + [c] + b` splits `a` and `b` independently. */
  lemma {:induction false} SplitAround(a: string, b: string, c: char)
    ensures Split(a + [c] + b, c) == Split(a, c) + Split(b, c)
    decreases |a|
  {
    var s := a + [c] + b;
    if |a| == 0 {
      assert s == [c] + b;
      assert s[1..] == b;
    } else {
      assert s[0] == a[0];
      assert s[1..] == a[1..] + [c] + b;
      SplitAround(a[1..], b, c);
      var ra := Split(a[1..], c);
      var rb := Split(b, c);
      if a[0] == c {
        assert Split(s, c) == [""] + (ra + rb);
      } else {
        assert Split(s, c) == [[a[0]] + (ra + rb)[0]] + (ra + rb)[1..];
        assert (ra + rb)[0] == ra[0];
        assert (ra + rb)[1..] == ra[1..] + rb;
      }
    }
  }

  /** A separator-free tail after the last `c` is the last segment. */
  lemma SplitLast(a: string, b: string, c: char)
    requires c !in b
    ensures Split(a + [c] + b, c) == Split(a, c) + [b]
  {
    SplitAround(a, b, c);
    SplitNoSeparator(b, c);
  }

  /** Appending one more separator-free segment extends the split by it. */
  lemma SplitExtend(u: string, parts: seq<string>, k: nat, c: char)
    requires 1 <= k < |parts| && c !in parts[k]
    requires Split(u, c) == parts[..k]
    ensures Split(u + [c] + parts[k], c) == parts[..k + 1]
  {
    SplitLast(u, parts[k], c);
    assert parts[..k + 1] == parts[..k] + [parts[k]];
  }

  /** The last segment of `s`: what follows the final `c`, or all of `s`. */
  function LastSegment(s: string, c: char): (z: string)
    ensures c !in z
    ensures IsLastSegment(s, c, z)
  {
    var parts := Split(s, c);
    LastSegmentOfSplit(s, c);
    parts[|parts| - 1]
  }

  /** The first segment of `s`: what precedes the first `c`, or all of `s`. */
  function FirstSegment(s: string, c: char): (n: string)
    ensures c !in n
    ensures IsFirstSegment(s, c, n)
  {
    var parts := Split(s, c);
    FirstSegmentOfSplit(s, c);
    parts[0]
  }

  /** Direct characterisation of a last segment, independent of `Split`:
      a separator-free suffix that is either all of `s` or preceded by `c`. */
  predicate IsLastSegment(s: string, c: char, z: string) {
    && |z| <= |s|
    && z == s[|s| - |z|..]
    && c !in z
    && (|z| == |s| || s[|s| - |z| - 1] == c)
  }

  /** Direct characterisation of a first segment: a separator-free prefix that
      is either all of `s` or followed by `c`. */
  predicate IsFirstSegment(s: string, c: char, n: string) {
    && |n| <= |s|
    && n == s[..|n|]
    && c !in n
    && (|n| == |s| || s[|n|] == c)
  }

  /** No segment contains the separator. */
  lemma {:induction false} SplitSeparatorFree(s: string, c: char)
    ensures forall k :: 0 <= k < |Split(s, c)| ==> c !in Split(s, c)[k]
    decreases |s|
  {
    if |s| > 0 {
      SplitSeparatorFree(s[1..], c);
      var rest := Split(s[1..], c);
      if s[0] != c {
        assert Split(s, c)[1..] == rest[1..];
      }
    }
  }

  /** A last segment of `s[1..]` stays the last segment of `s` unless it is
      all of `s[1..]` and `s[0]` is not the separator. */
  lemma LastSegmentShift(s: string, c: char, z: string)
    requires |s| > 0 && IsLastSegment(s[1..], c, z)
    requires |z| < |s| - 1 || s[0] == c
    ensures IsLastSegment(s, c, z)
  {
    var t := s[1..];
    assert s[|s| - |z|..] == t[|t| - |z|..];
    if |z| < |t| {
      assert s[|s| - |z| - 1] == t[|t| - |z| - 1];
    }
  }

  lemma {:induction false} LastSegmentOfSplit(s: string, c: char)
    ensures IsLastSegment(s, c, Split(s, c)[|Split(s, c)| - 1])
    decreases |s|
  {
    if |s| > 0 {
      var t := s[1..];
      LastSegmentOfSplit(t, c);
      var rest := Split(t, c);
      var parts := Split(s, c);
      var z := rest[|rest| - 1];
      if s[0] == c {
        assert parts[|parts| - 1] == z;
        LastSegmentShift(s, c, z);
      } else if |rest| == 1 {
        JoinSplit(t, c);
        assert parts == [[s[0]] + t];
        assert [s[0]] + t == s;
      } else {
        assert parts[|parts| - 1] == z;
        if |z| == |t| {
          assert z == t;
          SplitNoSeparator(t, c);
        }
        LastSegmentShift(s, c, z);
      }
    }
  }

  /** A first segment of `s[1..]`, behind a non-separator `s[0]`, grows into
      the first segment of `s`. */
  lemma FirstSegmentShift(s: string, c: char, n: string)
    requires |s| > 0 && s[0] != c && IsFirstSegment(s[1..], c, n)
    ensures IsFirstSegment(s, c, [s[0]] + n)
  {
    var t := s[1..];
    assert s[..|n| + 1] == [s[0]] + t[..|n|];
    if |n| < |t| {
      assert s[|n| + 1] == t[|n|];
    }
  }

  lemma {:induction false} FirstSegmentOfSplit(s: string, c: char)
    ensures IsFirstSegment(s, c, Split(s, c)[0])
    decreases |s|
  {
    if |s| > 0 {
      FirstSegmentOfSplit(s[1..], c);
      var rest := Split(s[1..], c);
      if s[0] != c {
        assert Split(s, c)[0] == [s[0]] + rest[0];
        FirstSegmentShift(s, c, rest[0]);
      }
    }
  }

  /** A last segment is unique: the characterisation pins down one string. */
  lemma LastSegmentUnique(s: string, c: char, z1: string, z2: string)
    requires IsLastSegment(s, c, z1) && IsLastSegment(s, c, z2)
    ensures z1 == z2
  {
  }

  /** A first segment is unique. */
  lemma FirstSegmentUnique(s: string, c: char, n1: string, n2: string)
    requires IsFirstSegment(s, c, n1) && IsFirstSegment(s, c, n2)
    ensures n1 == n2
  {
  }
}

=== FILE: waiter.dfy ===
/**
 The operation poll loop that `detachDisk` (main.go:150-165) and `attachDisk`
 (main.go:180-195) each carry, in identical copies. Each round queries the
 operation; a failed query ends the loop with that error, an operation with
 its error payload set ends it with an error naming the operation (whatever
 its status), a `DONE` operation ends it with success, and anything else
 sleeps and polls again. The loop has no bound: here the replies are a finite
 sequence, and running out of them leaves the wait `StillPolling`.
 */
module Waiter {
  import opened Compute

  /** A reply that ends the loop. */
  predicate Terminal(p: Poll) {
    p.QueryFailed? || p.hasError || p.status == DoneStatus
  }

  /** How the loop ends on a terminal reply. The error payload is examined
      before the status, so an errored operation fails even when `DONE`. */
  function Verdict(p: Poll, operation: string): (o: Outcome)
    requires Terminal(p)
    ensures o == Success <==> p.Polled? && !p.hasError
    ensures p.Polled? && p.hasError ==> o == Failure(OperationFailed(operation))
    ensures p.QueryFailed? ==> o == Failure(Remote(p.cause))
  {
    match p
    case QueryFailed(cause) => Failure(Remote(cause))
    case Polled(_, hasError) => if hasError then Failure(OperationFailed(operation)) else Success
  }

  /** The poll loop for `operation`, fed the successive status replies. */
  function Wait(project: string, zone: string, operation: string, polls: seq<Poll>): (r: Run)
    ensures forall k :: 0 <= k < |r.calls| ==> r.calls[k] == OperationGet(project, zone, operation)
    ensures r.outcome == StillPolling <==> forall k :: 0 <= k < |polls| ==> !Terminal(polls[k])
    ensures r.outcome == StillPolling ==> |r.calls| == |polls|
    ensures r.outcome != StillPolling ==>
      && 1 <= |r.calls| <= |polls|
      && Terminal(polls[|r.calls| - 1])
      && (forall k :: 0 <= k < |r.calls| - 1 ==> !Terminal(polls[k]))
      && r.outcome == Verdict(polls[|r.calls| - 1], operation)
    decreases |polls|
  {
    var query := OperationGet(project, zone, operation);
    if |polls| == 0 then Run([], StillPolling)
    else match polls[0]
      case QueryFailed(cause) => Run([query], Failure(Remote(cause)))
      case Polled(status, hasError) =>
        if hasError then Run([query], Failure(OperationFailed(operation)))
        else if status == DoneStatus then Run([query], Success)
        else
          var rest := Wait(project, zone, operation, polls[1..]);
          assert forall k :: 1 <= k < |polls| ==> polls[k] == polls[1..][k - 1];
          Run([query] + rest.calls, rest.outcome)
  }

  /** `n` status queries for the same operation. */
  function Queries(project: string, zone: string, operation: string, n: nat): (qs: seq<Call>)
    ensures |qs| == n
  {
    seq(n, _ => OperationGet(project, zone, operation))
  }

  /** The loop stops on the first terminal reply, after exactly one query per
      reply up to and including it, with that reply's verdict. */
  lemma StopsAtFirstTerminal(project: string, zone: string, operation: string, polls: seq<Poll>, k: nat)
    requires k < |polls| && Terminal(polls[k])
    requires forall j :: 0 <= j < k ==> !Terminal(polls[j])
    ensures Wait(project, zone, operation, polls)
         == Run(Queries(project, zone, operation, k + 1), Verdict(polls[k], operation))
  {
    var r := Wait(project, zone, operation, polls);
    assert |r.calls| == k + 1;
  }

  /** Without a terminal reply the loop consumes every reply and is still waiting. */
  lemma WaitsWithoutTerminal(project: string, zone: string, operation: string, polls: seq<Poll>)
    requires forall j :: 0 <= j < |polls| ==> !Terminal(polls[j])
    ensures Wait(project, zone, operation, polls)
         == Run(Queries(project, zone, operation, |polls|), StillPolling)
  {
  }

  /** The replies report the operation finished cleanly before anything
      else ended the loop: the first terminal reply is a `DONE` operation
      without an error payload. */
  predicate Completes(polls: seq<Poll>) {
    exists k :: 0 <= k < |polls| && CompletesAt(polls, k)
  }

  predicate CompletesAt(polls: seq<Poll>, k: int)
    requires 0 <= k < |polls|
  {
    && polls[k].Polled? && !polls[k].hasError && polls[k].status == DoneStatus
    && forall j :: 0 <= j < k ==> !Terminal(polls[j])
  }

  /** The loop reports success exactly when the operation completes cleanly. */
  lemma WaitSucceedsIff(project: string, zone: string, operation: string, polls: seq<Poll>)
    ensures Wait(project, zone, operation, polls).outcome == Success <==> Completes(polls)
  {
    var r := Wait(project, zone, operation, polls);
    if r.outcome == Success {
      assert CompletesAt(polls, |r.calls| - 1);
    }
    if Completes(polls) {
      var k :| 0 <= k < |polls| && CompletesAt(polls, k);
      StopsAtFirstTerminal(project, zone, operation, polls, k);
    }
  }

  /** Waiting never mutates the cloud. */
  lemma WaitMutatesNothing(project: string, zone: string, operation: string, polls: seq<Poll>)
    ensures Mutations(Wait(project, zone, operation, polls).calls) == []
  {
  }

  /** Two pending replies then `DONE`: success after exactly three queries. */
  lemma PendingPendingDone(project: string, zone: string, operation: string)
    ensures Wait(project, zone, operation,
                 [Polled("PENDING", false), Polled("RUNNING", false), Polled(DoneStatus, false)])
         == Run(Queries(project, zone, operation, 3), Success)
  {
    StopsAtFirstTerminal(project, zone, operation,
                         [Polled("PENDING", false), Polled("RUNNING", false), Polled(DoneStatus, false)], 2);
  }

  /** A `DONE` reply carrying an error payload fails at once, naming the operation. */
  lemma DoneWithErrorFails(project: string, zone: string, operation: string)
    ensures Wait(project, zone, operation, [Polled(DoneStatus, true), Polled(DoneStatus, false)])
         == Run(Queries(project, zone, operation, 1), Failure(OperationFailed(operation)))
  {
    StopsAtFirstTerminal(project, zone, operation, [Polled(DoneStatus, true), Polled(DoneStatus, false)], 0);
  }
}
